=== FILE: README.md ===
# string-rank in Dafny

A model of `src/index.ts`, a small library that gives items of an ordered
list sortable string keys ("ranks"). It has three parts:

- a **bijective base-26 codec**: `fromBijective` reads a string of letters
  as a number ('a' is 1, 'z' is 26, 'aa' is 27, with no digit for zero),
  and `toBijective` writes a number of 1 or more back as lowercase letters;
- **`increaseRank`**: moves a rank by a signed distance (decode, add,
  encode);
- **`betweenRanks`**: builds a two-part rank `major:minor` for an item
  placed next to two existing ranks. It first takes the rank that sorts
  first as a string as the upper one. It splits the major parts
  numerically when the major value of the rank that sorts later exceeds
  the other's by at least 2. Otherwise it splits the minor parts, with an
  absent minor part read as 'a' on the upper rank and 'z' on the lower
  one, and appends 'i' when the midpoint ends in 'a'. Failing that, it
  appends 'i' to the upper rank.

The Dafny modules follow that structure:

| module | file | contents |
|---|---|---|
| `StringOrder` | `string_order.dfy` | JavaScript's `<` on strings (`JsLess`) and its order laws |
| `Codec` | `codec.dfy` | `Decode`/`FromBijective` (fromBijective), `Encode` (toBijective), round trips, order agreement |
| `Shift` | `shift.dfy` | `IncreaseRank` (increaseRank) and its arithmetic |
| `Midpoint` | `midpoint.dfy` | the `Rank` datatype, `Parse`/`Show` (`split(':')` and the template literal), the three branches, `BetweenRanks` (betweenRanks) |

Everything is pure. Values are unbounded integers. The expectations of
`src/index.spec.tsx` are stated as lemmas: one lemma per `increaseRank`
and `betweenRanks` expectation, and one lemma each for the
`toBijective` examples and the `fromBijective` examples.

Behaviour of the code worth knowing, all of it stated in the model:

- **No errors.** The code signals no errors. The model states the code's
  valid domain as preconditions instead. Two equal ranks still get an
  answer (`EqualRanksGiveM`).
- **Absent minor part on the rank that sorts later.** Line 79 reads it as
  'z', which is 26.
- **Which rank is the upper one.** Line 61 picks the rank that sorts first
  by raw JavaScript string comparison, not by decoded value.
- **Strictly between.** The result does not always sort strictly between
  the two arguments. It is proved to do so in three cases:
  - lowercase major parts of one length whose values are at least 2 apart
    (`MajorSplitSortsBetween`);
  - a shared major part with non-empty lowercase minor parts of one length
    (`MinorSplitSortsBetween`);
  - adjacent lowercase major parts of one length with an empty minor part
    on the rank that sorts later (`AdjacentMajorsSortBetween`).

  Five counterexamples are proved: `ShorterMinorSortsBefore`,
  `LongerMajorSortsAfter`, `EmptyMinorExtendsPast`,
  `LongerLowerMinorSortsBefore` and `EqualRanksGiveM`.

## Model

| member | source | states |
|---|---|---|
| StringOrder.JsLess | src/index.ts:61 | JavaScript's `a < b`: the first differing character decides, by code point, and a proper prefix sorts first; it never holds of a string and itself |
| StringOrder.JsLessAsymmetric | src/index.ts:61 | `a < b` and `b < a` never both hold |
| StringOrder.JsLessTotal | src/index.ts:61 | of two different strings one sorts before the other, so the swap always has an answer |
| StringOrder.JsLessTransitive | src/index.ts:61 | string `<` is transitive |
| StringOrder.PrefixIsLess | src/index.ts:96 | extending a string by anything non-empty makes it sort strictly later |
| StringOrder.CommonPrefix | src/index.ts:61 | a shared prefix does not change the comparison, in both directions |
| StringOrder.DifferWithin | src/index.ts:61 | once equal-length strings compare, whatever follows them cannot change the outcome |
| Codec.Base36Value | src/index.ts:39 | `parseInt(c, 36)` of one character lies in 0..35, and is below 10 exactly for '0'..'9' |
| Codec.Base36Char | src/index.ts:57 | `toString(36)` of a digit is a character that `parseInt` reads back as that digit, a lowercase letter from 10 up |
| Codec.Digit | src/index.ts:39 | `parseInt(c, 36) - 9` of a letter of either case is a digit 1..26 |
| Codec.Letter | src/index.ts:57 | `(d + 9).toString(36)` is a lowercase letter whose digit is d |
| Codec.LetterOfDigit | src/index.ts:55-57 | reading a letter and writing its digit back gives the letter in lowercase |
| Codec.DigitOrder | src/index.ts:39 | on lowercase letters, character order and digit order are the same relation |
| Codec.Decode | src/index.ts:25-44 | the value of a letter string is positive exactly when the string is non-empty, and 0 for "" |
| Codec.FromBijective | src/index.ts:25-44 | the loop that sums digit·26^i from the right computes Decode |
| Codec.DecodePrepend | src/index.ts:39-40 | a letter with k letters after it contributes digit·26^k, the term the loop adds |
| Codec.Encode | src/index.ts:51-58 | toBijective of any n ≥ 1 is a non-empty string of lowercase letters |
| Codec.DecodeEncode | src/index.ts:46-58 | decoding the encoding of any n ≥ 1 gives n back |
| Codec.EncodeDecode | src/index.ts:18-24 | encoding the value of a non-empty letter string gives that string in lowercase |
| Codec.EncodeUnique | src/index.ts:51-58 | the encoding of n is the one non-empty lowercase numeral whose value is n |
| Codec.LowerNumeralInjective | src/index.ts:1-16 | two non-empty lowercase numerals with the same value are the same string |
| Codec.DecodeLower | src/index.ts:21-23 | decoding is case-insensitive: lowercasing changes no value |
| Codec.DecodeBounds | src/index.ts:1-16 | a numeral of length k has a value from that of "a…a" to that of "z…z" |
| Codec.LongerIsLarger | src/index.ts:1-16 | a strictly longer numeral has a strictly larger value |
| Codec.SameLengthBetween | src/index.ts:1-16 | a numeral whose value lies between two numerals of one length has that length too |
| Codec.EncodeLength | src/index.ts:51-58 | the length of the encoding is fixed by which length's value range n falls in |
| Codec.EncodeOrder | src/index.ts:51-58 | a larger value never gets a shorter numeral, and at equal length its numeral sorts later |
| Codec.LessImpliesSmaller | src/index.ts:61 | on lowercase numerals of equal length, sorting first means a smaller value |
| Codec.OrderAgreement | src/index.ts:61 | on lowercase numerals of equal length, string `<` holds exactly when the value is smaller |
| Codec.FromBijectiveExamples | src/index.spec.tsx:64-70 | "aaa", "aba" and "abk" decode to 703, 729 and 739 |
| Codec.ToBijectiveExamples | src/index.spec.tsx:55-62 | 1, 703, 729 and 739 encode to "a", "aaa", "aba" and "abk" |
| Shift.IncreaseRank | src/index.ts:99-107 | the result is a non-empty lowercase rank whose value is the old value plus n |
| Shift.IncreaseRankCompose | src/index.ts:105-107 | two moves in a row equal one move by the sum of the distances |
| Shift.IncreaseRankInverse | src/index.ts:105-107 | moving by n and then by -n gives the rank back in lowercase |
| Shift.IncreaseRankZero | src/index.ts:105-107 | a move by 0 only lowercases a non-empty rank |
| Shift.IncreaseRankUnique | src/index.ts:105-107 | the result is the one lowercase numeral whose value is the sum |
| Shift.IncreaseSmall | src/index.spec.tsx:4-9 | "aaa" moved by 10 is "aak" |
| Shift.IncreaseSmallOtherRank | src/index.spec.tsx:11-16 | "aaz" moved by 10 is "abj" |
| Shift.IncreaseMedium | src/index.spec.tsx:18-23 | "aaa" moved by 36 is "abk" |
| Shift.IncreaseLarge | src/index.spec.tsx:25-30 | "aaa" moved by 686 is "bak" |
| Shift.IncrementStep1 | src/index.spec.tsx:35-36 | "aaa" moved by 20 is "aau" |
| Shift.IncrementStep2 | src/index.spec.tsx:38-39 | "aau" moved by 20 is "abo" |
| Shift.IncrementStep3 | src/index.spec.tsx:41-42 | "abo" moved by 20 is "aci" |
| Shift.IncrementStep4 | src/index.spec.tsx:44-45 | "aci" moved by 676 is "bci" |
| Shift.IncrementStep5 | src/index.spec.tsx:47-48 | "bci" moved by 26 is "bdi" |
| Shift.IncrementStep6 | src/index.spec.tsx:50-51 | "bdi" moved by 17576 is "abdi" |
| Midpoint.ColonIndex | src/index.ts:63-64 | the position found is the first ':' in the string, or its length when there is none |
| Midpoint.Parse | src/index.ts:63-64 | splitting a rank string gives two letter strings whose string form is the input again |
| Midpoint.Show | src/index.ts:74 | the template literal `${major}:${minor}` (also lines 93 and 96); ParseShow proves that split(':') reads it back |
| Midpoint.ParseShow | src/index.ts:63-64 | splitting the string form of a rank gives the same rank back |
| Midpoint.Above | src/index.ts:61 | the upper rank is one of the two arguments, and neither argument sorts strictly before it |
| Midpoint.Below | src/index.ts:61 | the lower rank is one of the two arguments, and neither argument sorts strictly after it |
| Midpoint.MinorAboveValue | src/index.ts:78 | the upper rank's minor value: the value of its minor part, or 1 ('a') when that part is empty |
| Midpoint.MinorBelowValue | src/index.ts:79 | the lower rank's minor value: the value of its minor part, or 26 ('z') when that part is empty |
| Midpoint.OrderNormalised | src/index.ts:61 | the swap yields the two arguments in sorted order, the same whichever way round they are passed |
| Midpoint.MajorGap | src/index.ts:66-72 | the later rank's major value minus the first rank's, signed |
| Midpoint.MinorGap | src/index.ts:77-83 | the later rank's defaulted minor value minus the first rank's, signed |
| Midpoint.AvoidTrailingA | src/index.ts:87-91 | the minor part never ends in 'a'; it is the midpoint numeral, or that numeral with one more letter |
| Midpoint.SplitMajor | src/index.ts:71-75 | the major-part branch gives an empty minor part and a major value strictly between the two major values |
| Midpoint.MinorMidpoint | src/index.ts:84-91 | the minor part the minor-part branch writes: a non-empty lowercase numeral that never ends in 'a' (MinorMidpointBetween places its value) |
| Midpoint.MinorMidpointBetween | src/index.ts:80-91 | the written minor part decodes strictly between the minor values, or does once the appended 'i' is dropped |
| Midpoint.SplitMinor | src/index.ts:77-94 | the minor-part branch keeps the upper major part and writes a lowercase minor part that decodes strictly between the minor values, or does once the appended 'i' is dropped, and never ends in 'a' |
| Midpoint.Between | src/index.ts:66-96 | every branch keeps the upper major part or writes a major value strictly between the two, and never ends the minor part in 'a' |
| Midpoint.BetweenRanks | src/index.ts:60-97 | the result is again a rank string whose minor part is empty or does not end in 'a' |
| Midpoint.BetweenRanksOfParts | src/index.ts:60-64 | for ranks already in order, betweenRanks is the branch function applied to their parts |
| Midpoint.SplitMajorIs | src/index.ts:71-75 | the major-part branch writes exactly the lowercase numeral of the midpoint value |
| Midpoint.SplitMinorIs | src/index.ts:82-94 | the minor-part branch writes exactly the midpoint numeral when that does not end in 'a' |
| Midpoint.NoMinorsGiveM | src/index.ts:77-94 | with no room between the major values and no minor parts, the minor part is 'm', the midpoint of 1 and 26 |
| Midpoint.ShowMajorOrder | src/index.ts:61 | ranks whose major parts have one length and differ compare as their major parts do |
| Midpoint.ShowMinorOrder | src/index.ts:61 | ranks with the same major part compare exactly as their minor parts do |
| Midpoint.MajorOrderOfParts | src/index.ts:61 | with lowercase major parts of one length, the rank with the smaller major value sorts first |
| Midpoint.MajorOrderDecides | src/index.ts:61 | under the same condition line 61 keeps the argument order |
| Midpoint.BetweenRanksSymmetric | src/index.ts:61 | betweenRanks(a, b) and betweenRanks(b, a) are the same string |
| Midpoint.ExtendKeepsUpperAsPrefix | src/index.ts:96 | in the fallback branch the result is the upper rank followed by 'i': it sorts after it and its minor part ends in 'i' |
| Midpoint.MinorCoreSorts | src/index.ts:87-93 | a minor value strictly between two of one length sorts between them, also after an 'i' is appended |
| Midpoint.SplitMinorCore | src/index.ts:77-94 | with minor bounds of one length, the written minor part, less any appended 'i', has that length and a value strictly between |
| Midpoint.MajorSplitSortsBetween | src/index.ts:71-75 | with lowercase major parts of one length at least 2 apart, the result sorts strictly between the two ranks |
| Midpoint.MinorSplitSortsBetween | src/index.ts:77-96 | with a shared major part and lowercase minor parts of one length, the result sorts strictly between the two ranks |
| Midpoint.AdjacentMinorGrows | src/index.ts:77-96 | with adjacent major values and no lower minor part, the new minor part sorts after the upper one |
| Midpoint.AdjacentMajorsSortBetween | src/index.ts:60-97 | with adjacent lowercase major parts of one length and no lower minor part, the result sorts strictly between the two ranks |
| Midpoint.AdjacentMajorsEmptyMinors | src/index.ts:77-94 | adjacent major parts without minor parts give the upper rank followed by 'm' |
| Midpoint.MajorsTwoApart | src/index.ts:71-75 | lowercase major parts of one length whose values are 2 apart give the numeral of the value between them followed by ':', whatever the minor parts |
| Midpoint.AdjacentMajorsNoMinorRoom | src/index.ts:96 | adjacent lowercase major parts of one length, with the later rank's defaulted minor value less than 2 above the first rank's, give the upper rank followed by 'i' |
| Midpoint.BetweenAdjacentMajors | src/index.spec.tsx:74 | "aaaaaa:" and "aaaaab:" give "aaaaaa:m" |
| Midpoint.BetweenMajorsTwoApart | src/index.spec.tsx:75 | "aaaaaa:" and "aaaaac:" give "aaaaab:" |
| Midpoint.BetweenNoRoom | src/index.spec.tsx:76 | "aaaaaa:a" and "aaaaab:b" give "aaaaaa:ai" |
| Midpoint.EqualRanksGiveM | src/index.ts:60-97 | equal ranks without a minor part give the rank followed by 'm', which sorts after both |
| Midpoint.SameMajorSplitMinor | src/index.ts:77-94 | with a shared major part and the later-sorting rank's minor value at least 2 above the first-sorting rank's, the minor part is the midpoint numeral, of whatever length, when that numeral does not end in 'a' |
| Midpoint.SameMajorExtend | src/index.ts:96 | with a shared major part and no room between the minor values, the result is the upper rank followed by 'i' |
| Midpoint.MajorSplitResult | src/index.ts:71-75 | ranks in string order whose later rank's major value exceeds the first rank's by at least 2 give the midpoint numeral followed by ':', of whatever length |
| Midpoint.ShorterMinorSortsBefore | src/index.ts:77-94 | "aaa:b" and "aaa:bb" give "aaa:ab", which sorts before both arguments |
| Midpoint.LongerMajorSortsAfter | src/index.ts:61-75 | "a:" and "aaa:" give "mn:", which sorts after both arguments |
| Midpoint.EmptyMinorExtendsPast | src/index.ts:77-96 | "aaa:" and "aaa:b" give "aaa:i", which sorts after both arguments |
| Midpoint.AdjacentMajorsSplitMinor | src/index.ts:72-94 | adjacent lowercase major parts of one length, with the later rank's minor value (26 for 'z' when absent) at least 2 above the first rank's (1 for 'a' when absent), keep the upper major part and write the midpoint numeral as the minor part, when that numeral does not end in 'a' |
| Midpoint.LongerLowerMinorSortsBefore | src/index.ts:60-94 | "aaa:zz" and "aab:zzz" give "aaa:mzz", which sorts before both arguments |
| Midpoint.EqualRanksExample | src/index.ts:60-97 | "a:" with itself gives "a:m" |

## Left out

- JavaScript numbers are IEEE doubles. `26 ** i` and `Math.floor` lose precision for long numerals; the model uses unbounded integers.
- Codec.Decode: requires letters only. `parseInt(c, 36) - 9` maps '0'..'9' to -9..0 and other characters to `NaN`, and the source documents its input as letters.
- Codec.Encode: requires n ≥ 1, as the doc comment at src/index.ts:49 does. For smaller n the source writes 'z' or characters that are not letters.
- Shift.IncreaseRank: requires the sum to be at least 1, the domain of toBijective. Below that the source gives such strings.
- Midpoint.Parse: requires exactly one ':' between two letter strings. With more, `split` drops the extra parts. Without one, line 96 interpolates `undefined`.
- No theorem states that betweenRanks always sorts strictly between its arguments, because the code does not guarantee it (see the counterexamples above).
- JsLess compares characters by code point. JavaScript compares UTF-16 code units, and the two agree on every character a rank can hold.

=== FILE: codec.dfy ===
/** Bijective base-26 numeration (src/index.ts:1-58): 'a' is 1, 'z' is 26,
    'aa' is 27. There is no digit for zero, so every positive integer has
    exactly one lowercase numeral and every numeral of a given length stands
    for one value of a gapless range. */
module Codec {
  import opened StringOrder

  // ---------------------------------------------------------------------
  // Single characters: parseInt(c, 36) and (v).toString(36)
  // ---------------------------------------------------------------------

  predicate IsBase36Char(c: char)
  {
    '0' <= c <= '9' || 'a' <= c <= 'z' || 'A' <= c <= 'Z'
  }

  /** parseInt(c, 36) for one character: '0'..'9' are 0..9 and the letters,
      in either case, are 10..35. */
  function Base36Value(c: char): (v: int)
    requires IsBase36Char(c)
    ensures 0 <= v < 36
    ensures v < 10 <==> '0' <= c <= '9'
  {
    if '0' <= c <= '9' then c as int - '0' as int
    else if 'a' <= c <= 'z' then c as int - 'a' as int + 10
    else c as int - 'A' as int + 10
  }

  /** (v).toString(36) for one digit, which always writes letters in
      lowercase. */
  function Base36Char(v: int): (c: char)
    requires 0 <= v < 36
    ensures IsBase36Char(c) && Base36Value(c) == v
    ensures 10 <= v ==> 'a' <= c <= 'z'
  {
    if v < 10 then ('0' as int + v) as char else ('a' as int + v - 10) as char
  }

  predicate IsLetter(c: char)
  {
    'a' <= c <= 'z' || 'A' <= c <= 'Z'
  }

  predicate IsLowerLetter(c: char)
  {
    'a' <= c <= 'z'
  }

  function ToLower(c: char): char
  {
    if 'A' <= c <= 'Z' then (c as int - 'A' as int + 'a' as int) as char else c
  }

  /** The digit a letter stands for: parseInt(c, 36) - 9 (src/index.ts:39). */
  function Digit(c: char): (d: int)
    requires IsLetter(c)
    ensures 1 <= d <= 26
  {
    Base36Value(c) - 9
  }

  /** The letter written for a digit: (d + 9).toString(36) (src/index.ts:57). */
  function Letter(d: int): (c: char)
    requires 1 <= d <= 26
    ensures IsLowerLetter(c) && Digit(c) == d
  {
    Base36Char(d + 9)
  }

  /** Reading a letter and writing its digit back yields the letter in
      lowercase. */
  lemma LetterOfDigit(c: char)
    requires IsLetter(c)
    ensures Letter(Digit(c)) == ToLower(c)
  {
  }

  /** On lowercase letters the character order is the digit order. */
  lemma DigitOrder(c: char, e: char)
    requires IsLowerLetter(c) && IsLowerLetter(e)
    ensures c < e <==> Digit(c) < Digit(e)
  {
  }

  // ---------------------------------------------------------------------
  // Numerals
  // ---------------------------------------------------------------------

  /** A string the decoder accepts: letters of either case. */
  predicate IsNumeral(s: string)
  {
    forall i :: 0 <= i < |s| ==> IsLetter(s[i])
  }

  /** The canonical form the encoder writes: lowercase letters. */
  predicate IsLowerNumeral(s: string)
  {
    forall i :: 0 <= i < |s| ==> IsLowerLetter(s[i])
  }

  lemma LowerNumeralIsNumeral(s: string)
    requires IsLowerNumeral(s)
    ensures IsNumeral(s)
  {
  }

  lemma NumeralConcat(s: string, t: string)
    requires IsNumeral(s) && IsNumeral(t)
    ensures IsNumeral(s + t)
  {
    forall i | 0 <= i < |s + t|
      ensures IsLetter((s + t)[i])
    {
      if i < |s| {
        assert (s + t)[i] == s[i];
      } else {
        assert (s + t)[i] == t[i - |s|];
      }
    }
  }

  function Lower(s: string): string
  {
    seq(|s|, i requires 0 <= i < |s| => ToLower(s[i]))
  }

  function Pow26(k: nat): nat
  {
    if k == 0 then 1 else 26 * Pow26(k - 1)
  }

  /** The value of k letters 'a': 26^0 + ... + 26^(k-1), the smallest
      value a numeral of length k can have. */
  function Repunit(k: nat): nat
  {
    if k == 0 then 0 else 26 * Repunit(k - 1) + 1
  }

  /** The value of a numeral: the sum of Digit(s[|s|-1-i]) * 26^i, written
      from the least significant (last) letter. The empty string has
      value 0, as the loop of src/index.ts:26-43 gives it. */
  function Decode(s: string): (n: nat)
    requires IsNumeral(s)
    ensures n > 0 <==> |s| > 0
  {
    if |s| == 0 then 0 else Decode(s[..|s| - 1]) * 26 + Digit(s[|s| - 1])
  }

  /** fromBijective (src/index.ts:25-44): the loop that adds up
      digit * 26^i from the right. */
  method FromBijective(s: string) returns (base10: nat)
    requires IsNumeral(s)
    ensures base10 == Decode(s)
  {
    base10 := 0;
    var place: nat := 1;
    for i := 0 to |s|
      invariant place == Pow26(i)
      invariant base10 == Decode(s[|s| - i..])
    {
      var c := s[|s| - (i + 1)];
      assert s[|s| - (i + 1)..] == [c] + s[|s| - i..];
      DecodePrepend(c, s[|s| - i..]);
      base10 := base10 + Digit(c) * place;
      place := place * 26;
    }
  }

  /** toBijective (src/index.ts:51-58): the prefix encodes
      floor((n - 1) / 26) when n > 26, and the last letter is the digit
      `n % 26 || 26`, which is never zero. */
  function Encode(n: int): (s: string)
    requires n >= 1
    ensures |s| > 0 && IsLowerNumeral(s)
    decreases n
  {
    var prefix := if n > 26 then Encode((n - 1) / 26) else "";
    prefix + [Letter(if n % 26 == 0 then 26 else n % 26)]
  }

  // ---------------------------------------------------------------------
  // Properties of the codec
  // ---------------------------------------------------------------------

  /** A letter in front is worth its digit times 26 to the power of the
      number of letters after it: the term the loop of fromBijective adds. */
  lemma {:induction false} DecodePrepend(c: char, t: string)
    requires IsLetter(c) && IsNumeral(t)
    ensures IsNumeral([c] + t)
    ensures Decode([c] + t) == Digit(c) * Pow26(|t|) + Decode(t)
  {
    var s := [c] + t;
    if |t| > 0 {
      var t' := t[..|t| - 1];
      var e := Digit(t[|t| - 1]);
      assert s[..|s| - 1] == [c] + t';
      assert s[|s| - 1] == t[|t| - 1];
      DecodePrepend(c, t');
      assert Decode(s) == Decode([c] + t') * 26 + e;
      assert Decode(t) == Decode(t') * 26 + e;
      HornerStep(Digit(c), Pow26(|t'|), Decode(t'), e);
    }
  }

  /** The arithmetic of one Horner step with a leading digit d. */
  lemma HornerStep(d: int, p: int, v: int, e: int)
    ensures (d * p + v) * 26 + e == d * (26 * p) + (v * 26 + e)
  {
  }

  /** The division step of toBijective undoes the Horner step of the
      decoder: for n = 26 * q + d with d a digit, floor((n - 1) / 26) is q
      and `n % 26 || 26` is d. */
  lemma DivisionStep(q: int, d: int)
    requires q >= 0 && 1 <= d <= 26
    ensures (26 * q + d - 1) / 26 == q
    ensures (if (26 * q + d) % 26 == 0 then 26 else (26 * q + d) % 26) == d
  {
    var n := 26 * q + d;
    assert n - 1 == 26 * q + (d - 1);
    if d == 26 {
      assert n == 26 * (q + 1);
    } else {
      assert n % 26 == d;
    }
  }

  /** Encode then decode: every n >= 1 comes back unchanged. */
  lemma {:induction false} DecodeEncode(n: int)
    requires n >= 1
    ensures Decode(Encode(n)) == n
  {
    var q := (n - 1) / 26;
    var d := (n - 1) % 26 + 1;
    assert n == 26 * q + d;
    DivisionStep(q, d);
    var prefix := if n > 26 then Encode(q) else "";
    var s := Encode(n);
    assert s == prefix + [Letter(d)];
    assert s[..|s| - 1] == prefix;
    if n > 26 {
      DecodeEncode(q);
    }
    assert Decode(s) == Decode(prefix) * 26 + d;
  }

  /** Decode then encode: a non-empty numeral comes back in lowercase,
      otherwise unchanged. */
  lemma {:induction false} EncodeDecode(s: string)
    requires IsNumeral(s) && |s| > 0
    ensures Encode(Decode(s)) == Lower(s)
  {
    var p := s[..|s| - 1];
    var c := s[|s| - 1];
    var q := Decode(p);
    var n := Decode(s);
    assert n == 26 * q + Digit(c);
    DivisionStep(q, Digit(c));
    LetterOfDigit(c);
    var prefix := if n > 26 then Encode((n - 1) / 26) else "";
    assert Encode(n) == prefix + [ToLower(c)];
    assert Lower(s) == Lower(p) + [ToLower(c)];
    if |p| > 0 {
      EncodeDecode(p);
      assert prefix == Lower(p);
    } else {
      assert prefix == Lower(p);
    }
  }

  /** Lowercasing leaves a lowercase numeral as it is. */
  lemma LowerOfLowerNumeral(s: string)
    requires IsLowerNumeral(s)
    ensures Lower(s) == s
  {
  }

  /** Encode picks the one lowercase numeral with a given value. */
  lemma EncodeUnique(n: int, s: string)
    requires IsLowerNumeral(s) && |s| > 0 && Decode(s) == n
    ensures Encode(n) == s
  {
    EncodeDecode(s);
    LowerOfLowerNumeral(s);
  }

  /** Two non-empty lowercase numerals with the same value are equal. */
  lemma LowerNumeralInjective(s: string, t: string)
    requires IsLowerNumeral(s) && IsLowerNumeral(t) && |s| > 0 && |t| > 0
    requires Decode(s) == Decode(t)
    ensures s == t
  {
    EncodeUnique(Decode(s), s);
    EncodeUnique(Decode(t), t);
  }

  /** Decoding ignores case. */
  lemma DecodeLower(s: string)
    requires IsNumeral(s)
    ensures IsLowerNumeral(Lower(s))
    ensures Decode(Lower(s)) == Decode(s)
  {
    if |s| > 0 {
      EncodeDecode(s);
      DecodeEncode(Decode(s));
    }
  }

  lemma {:induction false} RepunitPow(k: nat)
    ensures 25 * Repunit(k) + 1 == Pow26(k)
  {
    if k > 0 {
      RepunitPow(k - 1);
    }
  }

  /** A numeral of length k decodes into [Repunit(k), 26 * Repunit(k)]:
      from "aa..a" to "zz..z". */
  lemma {:induction false} DecodeBounds(s: string)
    requires IsNumeral(s)
    ensures Repunit(|s|) <= Decode(s) <= 26 * Repunit(|s|)
  {
    if |s| > 0 {
      var p := s[..|s| - 1];
      DecodeBounds(p);
      assert Decode(s) == Decode(p) * 26 + Digit(s[|s| - 1]);
    }
  }

  /** Ranges of different lengths do not overlap: the largest value of
      length j lies below the smallest of any greater length. */
  lemma {:induction false} RepunitGap(j: nat, k: nat)
    requires j < k
    ensures 26 * Repunit(j) < Repunit(k)
  {
    if j + 1 < k {
      RepunitGap(j, k - 1);
    }
  }

  /** A strictly longer numeral decodes to a strictly larger value. */
  lemma LongerIsLarger(s: string, t: string)
    requires IsNumeral(s) && IsNumeral(t)
    requires |s| < |t|
    ensures Decode(s) < Decode(t)
  {
    DecodeBounds(s);
    DecodeBounds(t);
    RepunitGap(|s|, |t|);
  }

  /** The numerals of one length cover a contiguous range of values: a
      numeral whose value lies between two of length k has length k too. */
  lemma SameLengthBetween(s: string, m: string, t: string)
    requires IsNumeral(s) && IsNumeral(m) && IsNumeral(t)
    requires |s| == |t| && Decode(s) <= Decode(m) <= Decode(t)
    ensures |m| == |s|
  {
    if |m| < |s| {
      LongerIsLarger(m, s);
    } else if |m| > |t| {
      LongerIsLarger(t, m);
    }
  }

  /** The length of a numeral is fixed by its value's range. */
  lemma EncodeLength(n: int, k: nat)
    requires Repunit(k) <= n <= 26 * Repunit(k)
    requires n >= 1
    ensures |Encode(n)| == k
  {
    var s := Encode(n);
    DecodeEncode(n);
    DecodeBounds(s);
    if |s| < k {
      RepunitGap(|s|, k);
    } else if k < |s| {
      RepunitGap(k, |s|);
    }
  }

  /** On lowercase numerals of equal length, a string that sorts first
      under JavaScript's `<` has the smaller value. */
  lemma {:induction false} LessImpliesSmaller(s: string, t: string)
    requires IsLowerNumeral(s) && IsLowerNumeral(t) && |s| == |t|
    requires JsLess(s, t)
    ensures Decode(s) < Decode(t)
  {
    var k := |s| - 1;
    var s', t' := s[1..], t[1..];
    assert s == [s[0]] + s';
    assert t == [t[0]] + t';
    DecodePrepend(s[0], s');
    DecodePrepend(t[0], t');
    var p := Pow26(k);
    if s[0] == t[0] {
      LessImpliesSmaller(s', t');
    } else {
      DigitOrder(s[0], t[0]);
      DecodeBounds(s');
      DecodeBounds(t');
      RepunitPow(k);
      LeadingDigitDominates(Digit(s[0]), Digit(t[0]), Decode(s'), Decode(t'), Repunit(k), p);
    }
  }

  /** The arithmetic behind LessImpliesSmaller: a larger leading digit
      outweighs anything the letters after it can add. */
  lemma LeadingDigitDominates(a: int, b: int, x: int, y: int, r: int, p: int)
    requires a < b && 0 <= x <= 26 * r && r <= y && p == 25 * r + 1
    ensures a * p + x < b * p + y
  {
    calc {
      b * p;
      a * p + (b - a) * p;
    >= { AtLeastOnce(b - a, p); }
      a * p + p;
    }
  }

  lemma AtLeastOnce(g: int, p: int)
    requires g >= 1 && p >= 0
    ensures g * p >= p
  {
    assert g * p == (g - 1) * p + p;
  }

  /** The fromBijective cases of src/index.spec.tsx:64-70. */
  lemma FromBijectiveExamples()
    ensures Decode("aaa") == 703
    ensures Decode("aba") == 729
    ensures Decode("abk") == 739
  {
    assert "aaa"[..2] == "aa" && "aa"[..1] == "a";
    assert "aba"[..2] == "ab" && "ab"[..1] == "a";
    assert "abk"[..2] == "ab";
  }

  /** The toBijective cases of src/index.spec.tsx:55-62. */
  lemma ToBijectiveExamples()
    ensures Encode(1) == "a"
    ensures Encode(703) == "aaa"
    ensures Encode(729) == "aba"
    ensures Encode(739) == "abk"
  {
    FromBijectiveExamples();
    assert Decode("a") == 1;
    EncodeUnique(1, "a");
    EncodeUnique(703, "aaa");
    EncodeUnique(729, "aba");
    EncodeUnique(739, "abk");
  }

  /** Order agreement: on lowercase numerals of equal length, JavaScript's
      string order and numeric order are the same relation. */
  lemma OrderAgreement(s: string, t: string)
    requires IsLowerNumeral(s) && IsLowerNumeral(t) && |s| == |t|
    ensures JsLess(s, t) <==> Decode(s) < Decode(t)
  {
    if JsLess(s, t) {
      LessImpliesSmaller(s, t);
    } else {
      JsLessTotal(s, t);
      if s != t {
        LessImpliesSmaller(t, s);
      }
    }
  }

  /** The encoder is monotone: a larger value never gets a shorter numeral,
      and at equal length its numeral sorts later under JavaScript's `<`. */
  lemma EncodeOrder(m: int, n: int)
    requires 1 <= m < n
    ensures |Encode(m)| <= |Encode(n)|
    ensures |Encode(m)| == |Encode(n)| ==> JsLess(Encode(m), Encode(n))
  {
    DecodeEncode(m);
    DecodeEncode(n);
    if |Encode(m)| > |Encode(n)| {
      LongerIsLarger(Encode(n), Encode(m));
    } else if |Encode(m)| == |Encode(n)| {
      OrderAgreement(Encode(m), Encode(n));
    }
  }
}

=== FILE: midpoint.dfy ===
/** betweenRanks (src/index.ts:60-97): a new two-part rank `major:minor`
    for an item inserted next to two existing ones. The major parts are
    split numerically when there is room; otherwise the minor parts are,
    and failing that the upper rank's minor part is extended by 'i'. */
module Midpoint {
  import opened StringOrder
  import opened Codec

  /** A two-part rank `major:minor`; the minor part may be empty. */
  datatype Rank = Rank(major: string, minor: string)

  predicate IsRank(r: Rank)
  {
    IsNumeral(r.major) && IsNumeral(r.minor)
  }

  /** The string form of a rank: the template literal `${major}:${minor}`. */
  function Show(r: Rank): (s: string)
  {
    r.major + ":" + r.minor
  }

  /** The position of the first ':' in s, or |s| when there is none. */
  function ColonIndex(s: string): (k: nat)
    ensures k <= |s|
    ensures k < |s| ==> s[k] == ':'
    ensures forall i :: 0 <= i < k ==> s[i] != ':'
  {
    if |s| == 0 || s[0] == ':' then 0 else 1 + ColonIndex(s[1..])
  }

  /** A rank string: letters, exactly one ':', letters. */
  predicate IsRankString(s: string)
  {
    var k := ColonIndex(s);
    k < |s| && IsNumeral(s[..k]) && IsNumeral(s[k + 1..])
  }

  /** `const [major, minor] = s.split(':')` (src/index.ts:63-64) on a string
      holding exactly one ':'. */
  function Parse(s: string): (r: Rank)
    requires IsRankString(s)
    ensures IsRank(r)
    ensures Show(r) == s
  {
    var k := ColonIndex(s);
    assert s == s[..k] + ":" + s[k + 1..];
    Rank(s[..k], s[k + 1..])
  }

  /** Appending to the minor part appends to the string form. */
  lemma ShowAppend(r: Rank, t: string)
    ensures Show(Rank(r.major, r.minor + t)) == Show(r) + t
  {
    assert r.major + ":" + (r.minor + t) == (r.major + ":" + r.minor) + t;
  }

  /** Splitting the string form of a rank gives the rank back. */
  lemma ParseShow(r: Rank)
    requires IsRank(r)
    ensures IsRankString(Show(r))
    ensures Parse(Show(r)) == r
  {
    var s := Show(r);
    var k := ColonIndex(s);
    assert s[|r.major|] == ':';
    assert forall i :: 0 <= i < |r.major| ==> s[i] == r.major[i];
    assert k == |r.major|;
    assert s[..k] == r.major;
    assert s[k + 1..] == r.minor;
  }

  /** The rank that sorts first under JavaScript's `<` (src/index.ts:61).
      The source calls it "above": it is listed above the other. */
  function Above(a: string, b: string): (r: string)
    ensures r == a || r == b
    ensures !JsLess(a, r) && !JsLess(b, r)
  {
    JsLessIrreflexive(a);
    JsLessIrreflexive(b);
    JsLessAsymmetric(a, b);
    if JsLess(a, b) then a else b
  }

  /** The rank that sorts last under JavaScript's `<` (src/index.ts:61). */
  function Below(a: string, b: string): (r: string)
    ensures r == a || r == b
    ensures !JsLess(r, a) && !JsLess(r, b)
  {
    JsLessIrreflexive(a);
    JsLessIrreflexive(b);
    JsLessAsymmetric(a, b);
    if JsLess(a, b) then b else a
  }

  /** The swap of line 61 normalises the argument order: Above and Below
      are the two arguments, in sorted order, whichever way round they come. */
  lemma OrderNormalised(a: string, b: string)
    ensures Above(a, b) == Above(b, a) && Below(a, b) == Below(b, a)
    ensures multiset{Above(a, b), Below(a, b)} == multiset{a, b}
    ensures a != b ==> JsLess(Above(a, b), Below(a, b))
  {
    JsLessAsymmetric(a, b);
    JsLessTotal(a, b);
  }

  /** The value of the upper rank's minor part, 'a' when it is empty
      (src/index.ts:78). */
  function MinorAboveValue(r: Rank): (v: nat)
    requires IsRank(r)
    ensures v >= 1
    ensures r.minor == "" ==> v == 1
    ensures r.minor != "" ==> v == Decode(r.minor)
  {
    Decode(if r.minor == "" then "a" else r.minor)
  }

  /** The value of the lower rank's minor part, 'z' when it is empty
      (src/index.ts:79). */
  function MinorBelowValue(r: Rank): (v: nat)
    requires IsRank(r)
    ensures v >= 1
    ensures r.minor == "" ==> v == 26
    ensures r.minor != "" ==> v == Decode(r.minor)
  {
    Decode(if r.minor == "" then "z" else r.minor)
  }

  /** The room between the decoded major parts (src/index.ts:66-72). */
  function MajorGap(above: Rank, below: Rank): int
    requires IsRank(above) && IsRank(below)
  {
    Decode(below.major) - Decode(above.major)
  }

  /** The room between the decoded minor parts (src/index.ts:77-83). */
  function MinorGap(above: Rank, below: Rank): int
    requires IsRank(above) && IsRank(below)
  {
    MinorBelowValue(below) - MinorAboveValue(above)
  }

  /** A minor part may not end in 'a' (src/index.ts:87-91): no lowercase
      letter string sorts strictly between `y` and `ya`, so no rank fits between
      `x:y` and `x:ya` (the case of 'aaa:' and 'aaa:a'). A midpoint ending
      in 'a' therefore gets an 'i' appended. */
  function AvoidTrailingA(m: string): (f: string)
    requires |m| > 0
    ensures |f| > 0 && f[|f| - 1] != 'a'
    ensures |m| <= |f| <= |m| + 1 && f[..|m|] == m
    ensures IsLowerNumeral(m) ==> IsLowerNumeral(f)
  {
    if m[|m| - 1] == 'a' then m + "i" else m
  }

  /** The major-part branch (src/index.ts:71-75): the numeric midpoint of
      the major parts, with an empty minor part. */
  function SplitMajor(above: Rank, below: Rank): (r: Rank)
    requires IsRank(above) && IsRank(below)
    requires MajorGap(above, below) >= 2
    ensures IsRank(r) && IsLowerNumeral(r.major) && r.minor == ""
    ensures Decode(above.major) < Decode(r.major) < Decode(below.major)
  {
    var mid := (Decode(above.major) + Decode(below.major)) / 2;
    DecodeEncode(mid);
    LowerNumeralIsNumeral(Encode(mid));
    Rank(Encode(mid), "")
  }

  /** The numeral of the midpoint of lo and hi, with 'i' appended after a
      trailing 'a': the minor part the minor-part branch writes. */
  function MinorMidpoint(lo: int, hi: int): (f: string)
    requires 1 <= lo && lo + 2 <= hi
    ensures |f| > 0 && IsLowerNumeral(f) && f[|f| - 1] != 'a'
  {
    AvoidTrailingA(Encode((lo + hi) / 2))
  }

  /** MinorMidpoint is a lowercase numeral not ending in 'a' that decodes
      strictly between lo and hi, or does once its appended 'i' is
      dropped. */
  lemma MinorMidpointBetween(lo: int, hi: int)
    requires 1 <= lo && lo + 2 <= hi
    ensures var f := MinorMidpoint(lo, hi);
            && |f| > 0 && IsLowerNumeral(f) && f[|f| - 1] != 'a'
            && var m := f[..|f| - 1];
               || lo < Decode(f) < hi
               || (f[|f| - 1] == 'i' && |m| > 0 && m[|m| - 1] == 'a' && lo < Decode(m) < hi)
  {
    var mid := (lo + hi) / 2;
    var m := Encode(mid);
    DecodeEncode(mid);
    var f := AvoidTrailingA(m);
    LowerNumeralIsNumeral(f);
    if f != m {
      assert f == m + "i" && f[..|f| - 1] == m;
    }
  }

  /** The minor-part branch (src/index.ts:77-94): the upper major part and
      the numeric midpoint of the minor parts. When that midpoint's numeral
      ends in 'a', 'i' is appended, so the minor part itself decodes strictly
      between the two minor values, or it does once that 'i' is dropped. */
  function SplitMinor(above: Rank, below: Rank): (r: Rank)
    requires IsRank(above) && IsRank(below)
    requires MinorGap(above, below) >= 2
    ensures IsRank(r) && r.major == above.major
    ensures |r.minor| > 0 && IsLowerNumeral(r.minor) && r.minor[|r.minor| - 1] != 'a'
    ensures var lo, hi := MinorAboveValue(above), MinorBelowValue(below);
            var m := r.minor[..|r.minor| - 1];
            || lo < Decode(r.minor) < hi
            || (r.minor[|r.minor| - 1] == 'i' && |m| > 0 && m[|m| - 1] == 'a' && lo < Decode(m) < hi)
  {
    var lo, hi := MinorAboveValue(above), MinorBelowValue(below);
    MinorMidpointBetween(lo, hi);
    LowerNumeralIsNumeral(MinorMidpoint(lo, hi));
    Rank(above.major, MinorMidpoint(lo, hi))
  }

  /** The three branches of betweenRanks on the split ranks, `above`
      sorting first (src/index.ts:66-96). The result keeps the upper major
      part or has an empty minor part and a major part strictly between the
      two, and its minor part never ends in 'a'. */
  function Between(above: Rank, below: Rank): (r: Rank)
    requires IsRank(above) && IsRank(below)
    ensures IsRank(r)
    ensures r.minor == "" || r.minor[|r.minor| - 1] != 'a'
    ensures || r.major == above.major
            || (r.minor == "" && Decode(above.major) < Decode(r.major) < Decode(below.major))
  {
    if MajorGap(above, below) >= 2 then
      SplitMajor(above, below)
    else if MinorGap(above, below) >= 2 then
      SplitMinor(above, below)
    else
      var f := above.minor + "i";
      NumeralConcat(above.minor, "i");
      assert f[|f| - 1] == 'i';
      Rank(above.major, f)
  }

  /** betweenRanks(a, b) (src/index.ts:60-97). */
  function BetweenRanks(a: string, b: string): (r: string)
    requires IsRankString(a) && IsRankString(b)
    ensures IsRankString(r)
    ensures var minor := Parse(r).minor; minor == "" || minor[|minor| - 1] != 'a'
  {
    var rank := Between(Parse(Above(a, b)), Parse(Below(a, b)));
    ParseShow(rank);
    Show(rank)
  }

  // ---------------------------------------------------------------------
  // The branches on ranks
  // ---------------------------------------------------------------------

  /** For ranks given by their parts and already in order, betweenRanks is
      Between on those parts. */
  lemma BetweenRanksOfParts(above: Rank, below: Rank)
    requires IsRank(above) && IsRank(below)
    requires above == below || JsLess(Show(above), Show(below))
    ensures IsRankString(Show(above)) && IsRankString(Show(below))
    ensures BetweenRanks(Show(above), Show(below)) == Show(Between(above, below))
  {
    ParseShow(above);
    ParseShow(below);
  }

  /** Between takes the major-part branch when the lower rank's major
      value exceeds the upper rank's by at least 2. */
  lemma MajorBranchTaken(above: Rank, below: Rank)
    requires IsRank(above) && IsRank(below) && MajorGap(above, below) >= 2
    ensures Between(above, below) == Rank(Encode((Decode(above.major) + Decode(below.major)) / 2), "")
  {
  }

  /** Between takes the minor-part branch when only the lower rank's
      defaulted minor value exceeds the upper rank's by at least 2. */
  lemma MinorBranchTaken(above: Rank, below: Rank)
    requires IsRank(above) && IsRank(below)
    requires MajorGap(above, below) < 2 && MinorGap(above, below) >= 2
    ensures Between(above, below)
         == Rank(above.major, AvoidTrailingA(Encode((MinorAboveValue(above) + MinorBelowValue(below)) / 2)))
  {
  }

  /** Between extends the upper minor part by 'i' when neither part
      leaves room. */
  lemma FallbackBranchTaken(above: Rank, below: Rank)
    requires IsRank(above) && IsRank(below)
    requires MajorGap(above, below) < 2 && MinorGap(above, below) < 2
    ensures Between(above, below) == Rank(above.major, above.minor + "i")
  {
  }

  /** The major-part branch in terms of the midpoint numeral `middle`. */
  lemma SplitMajorIs(above: Rank, below: Rank, middle: string)
    requires IsRank(above) && IsRank(below) && MajorGap(above, below) >= 2
    requires IsLowerNumeral(middle) && |middle| > 0
    requires Decode(middle) == (Decode(above.major) + Decode(below.major)) / 2
    ensures Between(above, below) == Rank(middle, "")
  {
    MajorBranchTaken(above, below);
    EncodeUnique(Decode(middle), middle);
  }

  /** The minor-part branch in terms of the midpoint numeral `m`, when it
      does not end in 'a'. */
  lemma SplitMinorIs(above: Rank, below: Rank, m: string)
    requires IsRank(above) && IsRank(below)
    requires MajorGap(above, below) < 2 && MinorGap(above, below) >= 2
    requires IsLowerNumeral(m) && |m| > 0 && m[|m| - 1] != 'a'
    requires Decode(m) == (MinorAboveValue(above) + MinorBelowValue(below)) / 2
    ensures Between(above, below) == Rank(above.major, m)
  {
    MinorBranchTaken(above, below);
    EncodeUnique(Decode(m), m);
  }

  /** With no room between the major parts and no minor parts, the minor
      parts default to 'a' (1) and 'z' (26) and their midpoint 13 is 'm'. */
  lemma NoMinorsGiveM(above: Rank, below: Rank)
    requires IsRank(above) && IsRank(below) && MajorGap(above, below) < 2
    requires above.minor == "" && below.minor == ""
    ensures Between(above, below) == Rank(above.major, "m")
  {
    assert MinorAboveValue(above) == 1 && MinorBelowValue(below) == 26 by {
      assert Decode("a") == 1 && Decode("z") == 26;
    }
    MinorBranchTaken(above, below);
    EncodeUnique(13, "m");
  }


  /** Ranks whose major parts differ, at one length, compare as their
      major parts do. */
  lemma ShowMajorOrder(x: Rank, y: Rank)
    requires |x.major| == |y.major| && JsLess(x.major, y.major)
    ensures JsLess(Show(x), Show(y))
  {
    assert Show(x) == x.major + (":" + x.minor);
    assert Show(y) == y.major + (":" + y.minor);
    DifferWithin(x.major, y.major, ":" + x.minor, ":" + y.minor);
  }

  /** Ranks sharing a major part compare as their minor parts do. */
  lemma ShowMinorOrder(x: Rank, y: Rank)
    requires x.major == y.major
    ensures JsLess(Show(x), Show(y)) <==> JsLess(x.minor, y.minor)
  {
    CommonPrefix(x.major + ":", x.minor, y.minor);
  }

  /** Ranks with lowercase major parts of one length compare as the major
      values do. */
  lemma MajorOrderOfParts(above: Rank, below: Rank)
    requires IsRank(above) && IsRank(below)
    requires IsLowerNumeral(above.major) && IsLowerNumeral(below.major)
    requires |above.major| == |below.major| && Decode(above.major) < Decode(below.major)
    ensures JsLess(Show(above), Show(below))
  {
    OrderAgreement(above.major, below.major);
    ShowMajorOrder(above, below);
  }

  // ---------------------------------------------------------------------
  // betweenRanks on strings
  // ---------------------------------------------------------------------

  /** The argument order does not matter. */
  lemma BetweenRanksSymmetric(a: string, b: string)
    requires IsRankString(a) && IsRankString(b)
    ensures BetweenRanks(a, b) == BetweenRanks(b, a)
  {
    OrderNormalised(a, b);
  }

  /** In the fallback branch the result is the upper rank followed by 'i':
      the upper rank is a proper prefix of it, so it sorts after it. */
  lemma ExtendKeepsUpperAsPrefix(a: string, b: string)
    requires IsRankString(a) && IsRankString(b)
    requires MajorGap(Parse(Above(a, b)), Parse(Below(a, b))) < 2
    requires MinorGap(Parse(Above(a, b)), Parse(Below(a, b))) < 2
    ensures BetweenRanks(a, b) == Above(a, b) + "i"
    ensures JsLess(Above(a, b), BetweenRanks(a, b))
    ensures var minor := Parse(BetweenRanks(a, b)).minor; minor[|minor| - 1] == 'i'
  {
    var A, B := Parse(Above(a, b)), Parse(Below(a, b));
    FallbackShown(A, B);
    assert BetweenRanks(a, b) == Show(Between(A, B));
    PrefixIsLess(Above(a, b), "i");
  }

  /** The fallback branch on ranks, as a string and parsed back. */
  lemma FallbackShown(above: Rank, below: Rank)
    requires IsRank(above) && IsRank(below)
    requires MajorGap(above, below) < 2 && MinorGap(above, below) < 2
    ensures Show(Between(above, below)) == Show(above) + "i"
    ensures IsRankString(Show(Between(above, below)))
    ensures Parse(Show(Between(above, below))).minor == above.minor + "i"
  {
    FallbackBranchTaken(above, below);
    ShowAppend(above, "i");
    NumeralConcat(above.minor, "i");
    ParseShow(Rank(above.major, above.minor + "i"));
  }

  // ---------------------------------------------------------------------
  // When the result sorts strictly between its arguments
  // ---------------------------------------------------------------------

  /** The core of a minor part: the minor part without the 'i' that
      SplitMinor appends after a trailing 'a'. */
  lemma MinorCoreSorts(x: string, f: string, y: string, m: string)
    requires IsLowerNumeral(x) && IsLowerNumeral(m) && IsLowerNumeral(y)
    requires |x| == |m| == |y| && Decode(x) < Decode(m) < Decode(y)
    requires f == m || f == m + "i"
    ensures JsLess(x, f) && JsLess(f, y)
  {
    OrderAgreement(x, m);
    OrderAgreement(m, y);
    if f != m {
      assert x + "" == x && y + "" == y;
      DifferWithin(x, m, "", "i");
      DifferWithin(m, y, "i", "");
    }
  }

  /** The core of SplitMinor's minor part, and its place among the minor
      values, when both bounds are numerals of one length. */
  lemma SplitMinorCore(above: Rank, below: Rank, x: string, y: string) returns (m: string)
    requires IsRank(above) && IsRank(below) && MinorGap(above, below) >= 2
    requires IsLowerNumeral(x) && IsLowerNumeral(y) && |x| == |y|
    requires Decode(x) == MinorAboveValue(above) && Decode(y) == MinorBelowValue(below)
    ensures var f := SplitMinor(above, below).minor;
            && IsLowerNumeral(m) && |m| == |x| && Decode(x) < Decode(m) < Decode(y)
            && (f == m || f == m + "i")
  {
    var f := SplitMinor(above, below).minor;
    if MinorAboveValue(above) < Decode(f) < MinorBelowValue(below) {
      m := f;
    } else {
      m := f[..|f| - 1];
      assert f == m + "i";
    }
    LowerNumeralIsNumeral(x);
    LowerNumeralIsNumeral(y);
    LowerNumeralIsNumeral(m);
    SameLengthBetween(x, m, y);
  }

  /** With lowercase major parts of one length, the rank with the smaller
      major value is the one line 61 takes as the upper rank. */
  lemma MajorOrderDecides(a: string, b: string)
    requires IsRankString(a) && IsRankString(b)
    requires IsLowerNumeral(Parse(a).major) && IsLowerNumeral(Parse(b).major)
    requires |Parse(a).major| == |Parse(b).major|
    requires Decode(Parse(a).major) < Decode(Parse(b).major)
    ensures JsLess(a, b)
    ensures BetweenRanks(a, b) == Show(Between(Parse(a), Parse(b)))
  {
    MajorOrderOfParts(Parse(a), Parse(b));
  }

  /** The major-part branch in the common case of lowercase major parts of
      one length: the result sorts strictly between the two ranks. */
  lemma MajorSplitSortsBetween(a: string, b: string)
    requires IsRankString(a) && IsRankString(b)
    requires IsLowerNumeral(Parse(a).major) && IsLowerNumeral(Parse(b).major)
    requires |Parse(a).major| == |Parse(b).major|
    requires Decode(Parse(a).major) + 2 <= Decode(Parse(b).major)
    ensures JsLess(a, BetweenRanks(a, b)) && JsLess(BetweenRanks(a, b), b)
  {
    var A, B := Parse(a), Parse(b);
    MajorOrderDecides(a, b);
    var r := SplitMajor(A, B);
    assert Between(A, B) == r;
    LowerNumeralIsNumeral(r.major);
    SameLengthBetween(A.major, r.major, B.major);
    OrderAgreement(A.major, r.major);
    OrderAgreement(r.major, B.major);
    ShowMajorOrder(A, r);
    ShowMajorOrder(r, B);
  }

  /** Two ranks with the same major part and lowercase minor parts of one
      length: the result sorts strictly between them, whether the minor
      parts are split or the upper one is extended. */
  lemma MinorSplitSortsBetween(a: string, b: string)
    requires IsRankString(a) && IsRankString(b)
    requires Parse(a).major == Parse(b).major
    requires IsLowerNumeral(Parse(a).minor) && IsLowerNumeral(Parse(b).minor)
    requires 0 < |Parse(a).minor| == |Parse(b).minor|
    requires Decode(Parse(a).minor) < Decode(Parse(b).minor)
    ensures JsLess(a, BetweenRanks(a, b)) && JsLess(BetweenRanks(a, b), b)
  {
    var A, B := Parse(a), Parse(b);
    var p := A.major + ":";
    assert a == p + A.minor && b == p + B.minor;
    OrderAgreement(A.minor, B.minor);
    CommonPrefix(p, A.minor, B.minor);
    assert Above(a, b) == a && Below(a, b) == b;
    var r := Between(A, B);
    assert BetweenRanks(a, b) == Show(r);
    assert r.major == A.major;
    assert Show(r) == p + r.minor;
    if MinorGap(A, B) >= 2 {
      var m := SplitMinorCore(A, B, A.minor, B.minor);
      MinorCoreSorts(A.minor, r.minor, B.minor, m);
    } else {
      assert r.minor == A.minor + "i";
      assert B.minor + "" == B.minor;
      DifferWithin(A.minor, B.minor, "i", "");
      PrefixIsLess(A.minor, "i");
    }
    CommonPrefix(p, A.minor, r.minor);
    CommonPrefix(p, r.minor, B.minor);
  }

  /** With adjacent major parts and an empty lower minor part, the minor
      part of the result sorts after the upper rank's minor part. */
  lemma AdjacentMinorGrows(above: Rank, below: Rank)
    requires IsRank(above) && IsRank(below)
    requires MajorGap(above, below) < 2
    requires IsLowerNumeral(above.minor) && below.minor == ""
    ensures JsLess(above.minor, Between(above, below).minor)
  {
    var f := Between(above, below).minor;
    assert Decode("z") == 26;
    if MinorGap(above, below) < 2 {
      PrefixIsLess(above.minor, "i");
    } else if above.minor == "" {
      assert |f| > 0;
    } else {
      DecodeBounds(above.minor);
      var m := SplitMinorCore(above, below, above.minor, "z");
      MinorCoreSorts(above.minor, f, "z", m);
    }
  }

  /** Adjacent lowercase major parts of one length, the lower rank with an
      empty minor part (as in `aaaaaa:` and `aaaaab:`): the result keeps the
      upper major part and sorts strictly between the two ranks. */
  lemma AdjacentMajorsSortBetween(a: string, b: string)
    requires IsRankString(a) && IsRankString(b)
    requires IsLowerNumeral(Parse(a).major) && IsLowerNumeral(Parse(b).major)
    requires |Parse(a).major| == |Parse(b).major|
    requires Decode(Parse(a).major) + 1 == Decode(Parse(b).major)
    requires IsLowerNumeral(Parse(a).minor) && Parse(b).minor == ""
    ensures JsLess(a, BetweenRanks(a, b)) && JsLess(BetweenRanks(a, b), b)
  {
    var A, B := Parse(a), Parse(b);
    MajorOrderDecides(a, b);
    var r := Between(A, B);
    assert r.major == A.major;
    OrderAgreement(A.major, B.major);
    ShowMajorOrder(r, B);
    AdjacentMinorGrows(A, B);
    var p := A.major + ":";
    assert a == p + A.minor && Show(r) == p + r.minor;
    CommonPrefix(p, A.minor, r.minor);
  }

  // ---------------------------------------------------------------------
  // The cases of src/index.spec.tsx:72-78
  // ---------------------------------------------------------------------

  // Each example below is a general lemma over symbolic ranks plus an
  // instance whose string arguments are pinned by `requires a == "…"`.
  // The instance builds its ranks from slices of those arguments, so the
  // verifier never unfolds Decode, Encode or Show on a whole literal,
  // which it does only at great cost. The ensures still names the
  // literal result.

  /** Adjacent lowercase major parts of one length and no minor parts:
      the upper major part is kept and the minor part is 'm', the midpoint
      of the defaults 'a' (1) and 'z' (26). */
  lemma AdjacentMajorsEmptyMinors(above: Rank, below: Rank)
    requires IsRank(above) && IsRank(below) && above.minor == "" && below.minor == ""
    requires IsLowerNumeral(above.major) && IsLowerNumeral(below.major)
    requires |above.major| == |below.major| && Decode(below.major) == Decode(above.major) + 1
    ensures IsRankString(Show(above)) && IsRankString(Show(below))
    ensures BetweenRanks(Show(above), Show(below)) == Show(above) + "m"
  {
    MajorOrderOfParts(above, below);
    NoMinorsGiveM(above, below);
    ShowAppend(above, "m");
    assert above.minor + "m" == "m";
    BetweenRanksOfParts(above, below);
  }

  /** Lowercase major parts of one length whose values are 2 apart: the
      result is the major part `middle` whose value lies between them, with
      an empty minor part, whatever the minor parts were. */
  lemma MajorsTwoApart(above: Rank, below: Rank, middle: string)
    requires IsRank(above) && IsRank(below)
    requires IsLowerNumeral(above.major) && IsLowerNumeral(below.major)
    requires |above.major| == |below.major| && Decode(below.major) == Decode(above.major) + 2
    requires IsLowerNumeral(middle) && |middle| > 0 && Decode(middle) == Decode(above.major) + 1
    ensures IsRankString(Show(above)) && IsRankString(Show(below))
    ensures BetweenRanks(Show(above), Show(below)) == middle + ":"
  {
    MajorOrderOfParts(above, below);
    SplitMajorIs(above, below, middle);
    assert Show(Rank(middle, "")) == middle + ":";
    BetweenRanksOfParts(above, below);
  }

  /** Adjacent lowercase major parts of one length, the lower rank's
      defaulted minor value less than 2 above the upper rank's: the upper
      rank is extended by 'i'. */
  lemma AdjacentMajorsNoMinorRoom(above: Rank, below: Rank)
    requires IsRank(above) && IsRank(below)
    requires IsLowerNumeral(above.major) && IsLowerNumeral(below.major)
    requires |above.major| == |below.major| && Decode(below.major) == Decode(above.major) + 1
    requires MinorGap(above, below) < 2
    ensures IsRankString(Show(above)) && IsRankString(Show(below))
    ensures BetweenRanks(Show(above), Show(below)) == Show(above) + "i"
  {
    MajorOrderOfParts(above, below);
    FallbackBranchTaken(above, below);
    ShowAppend(above, "i");
    BetweenRanksOfParts(above, below);
  }

  /** The first expectation of src/index.spec.tsx:74-76. */
  lemma BetweenAdjacentMajors(a: string, b: string)
    requires a == "aaaaaa:" && b == "aaaaab:"
    ensures IsRankString(a) && IsRankString(b)
    ensures BetweenRanks(a, b) == "aaaaaa:m"
  {
    var A, B := Rank(a[..6], ""), Rank(b[..6], "");
    assert A.major == "aaaaaa" && B.major == "aaaaab";
    assert A.major[..5] == "aaaaa" && B.major[..5] == "aaaaa";
    assert Show(A) == a && Show(B) == b && Show(A) + "m" == "aaaaaa:m";
    AdjacentMajorsEmptyMinors(A, B);
  }

  /** The second expectation of src/index.spec.tsx:74-76. */
  lemma BetweenMajorsTwoApart(a: string, b: string)
    requires a == "aaaaaa:" && b == "aaaaac:"
    ensures IsRankString(a) && IsRankString(b)
    ensures BetweenRanks(a, b) == "aaaaab:"
  {
    var A, B := Rank(a[..6], ""), Rank(b[..6], "");
    var middle := a[..5] + "b";
    assert A.major == "aaaaaa" && B.major == "aaaaac" && middle == "aaaaab";
    assert A.major[..5] == "aaaaa" && B.major[..5] == "aaaaa" && middle[..5] == "aaaaa";
    assert Show(A) == a && Show(B) == b && middle + ":" == "aaaaab:";
    MajorsTwoApart(A, B, middle);
  }

  /** The third expectation of src/index.spec.tsx:74-76. */
  lemma BetweenNoRoom(a: string, b: string)
    requires a == "aaaaaa:a" && b == "aaaaab:b"
    ensures IsRankString(a) && IsRankString(b)
    ensures BetweenRanks(a, b) == "aaaaaa:ai"
  {
    var A, B := Rank(a[..6], a[7..]), Rank(b[..6], b[7..]);
    assert A.major == "aaaaaa" && B.major == "aaaaab" && A.minor == "a" && B.minor == "b";
    assert A.major[..5] == "aaaaa" && B.major[..5] == "aaaaa";
    assert Show(A) == a && Show(B) == b && Show(A) + "i" == "aaaaaa:ai";
    AdjacentMajorsNoMinorRoom(A, B);
  }

  // ---------------------------------------------------------------------
  // Where the result does not sort between its arguments
  // ---------------------------------------------------------------------

  /** Equal ranks without a minor part: the result is a new rank, the
      major part followed by ':m', which sorts after both arguments. */
  lemma EqualRanksGiveM(r: Rank)
    requires IsRank(r) && r.minor == ""
    ensures IsRankString(Show(r))
    ensures BetweenRanks(Show(r), Show(r)) == Show(r) + "m"
    ensures JsLess(Show(r), BetweenRanks(Show(r), Show(r)))
  {
    BetweenRanksOfParts(r, r);
    NoMinorsGiveM(r, r);
    ShowAppend(r, "m");
    assert r.minor + "m" == "m";
    PrefixIsLess(Show(r), "m");
  }

  /** Two ranks sharing a major part, the lower rank's minor value at
      least 2 above the upper rank's: the result has the midpoint numeral `m` as its minor part
      (given here, not ending in 'a'), whatever its length. */
  lemma SameMajorSplitMinor(above: Rank, below: Rank, m: string)
    requires IsRank(above) && IsRank(below) && above.major == below.major
    requires |above.minor| > 0 && |below.minor| > 0 && JsLess(above.minor, below.minor)
    requires Decode(above.minor) + 2 <= Decode(below.minor)
    requires IsLowerNumeral(m) && |m| > 0 && m[|m| - 1] != 'a'
    requires Decode(m) == (Decode(above.minor) + Decode(below.minor)) / 2
    ensures IsRankString(Show(above)) && IsRankString(Show(below))
    ensures BetweenRanks(Show(above), Show(below)) == Show(Rank(above.major, m))
  {
    assert JsLess(Show(above), Show(below)) by { ShowMinorOrder(above, below); }
    assert Between(above, below) == Rank(above.major, m) by { SplitMinorIs(above, below, m); }
    BetweenRanksOfParts(above, below);
  }

  /** Two ranks sharing a major part whose minor parts leave no room: the
      upper rank is extended by 'i'. */
  lemma SameMajorExtend(above: Rank, below: Rank)
    requires IsRank(above) && IsRank(below) && above.major == below.major
    requires JsLess(above.minor, below.minor) && MinorGap(above, below) < 2
    ensures IsRankString(Show(above)) && IsRankString(Show(below))
    ensures BetweenRanks(Show(above), Show(below)) == Show(above) + "i"
  {
    assert JsLess(Show(above), Show(below)) by { ShowMinorOrder(above, below); }
    FallbackBranchTaken(above, below);
    ShowAppend(above, "i");
    BetweenRanksOfParts(above, below);
  }

  /** Two ranks in order, the lower rank's major value at least 2 above
      the upper rank's: the result is the midpoint numeral `middle` with an empty minor part,
      whatever its length. */
  lemma MajorSplitResult(above: Rank, below: Rank, middle: string)
    requires IsRank(above) && IsRank(below) && JsLess(Show(above), Show(below))
    requires Decode(above.major) + 2 <= Decode(below.major)
    requires IsLowerNumeral(middle) && |middle| > 0
    requires Decode(middle) == (Decode(above.major) + Decode(below.major)) / 2
    ensures IsRankString(Show(above)) && IsRankString(Show(below))
    ensures BetweenRanks(Show(above), Show(below)) == Show(Rank(middle, ""))
  {
    BetweenRanksOfParts(above, below);
    SplitMajorIs(above, below, middle);
  }

  /** A minor part that is a proper prefix of the other sorts first, yet
      has the smaller value: `aaa:b` and `aaa:bb` give `aaa:ab`, which sorts
      before both. */
  lemma ShorterMinorSortsBefore(a: string, b: string)
    requires a == "aaa:b" && b == "aaa:bb"
    ensures IsRankString(a) && IsRankString(b)
    ensures BetweenRanks(a, b) == "aaa:ab"
    ensures JsLess("aaa:ab", a)
  {
    var major, x, y := a[..3], a[4..], b[4..];
    var m := a[..1] + x;
    assert major == "aaa" && x == "b" && y == "bb" && m == "ab";
    ShortMinorValues(x, y, m);
    var A, B, R := Rank(major, x), Rank(major, y), Rank(major, m);
    assert Show(A) == a && Show(B) == b && Show(R) == "aaa:ab";
    assert JsLess("aaa:ab", a) by { ShowMinorOrder(R, A); }
    SameMajorSplitMinor(A, B, m);
  }

  /** The minor parts of ShorterMinorSortsBefore: "b" sorts before "bb"
      and after "ab", which has the midpoint value 28 of 2 and 54. */
  lemma ShortMinorValues(x: string, y: string, m: string)
    requires x == "b" && y == "bb" && m == "ab"
    ensures IsLowerNumeral(m) && m[|m| - 1] != 'a'
    ensures Decode(x) == 2 && Decode(y) == 54 && Decode(m) == 28
    ensures JsLess(x, y) && JsLess(m, x)
  {
    assert y[..1] == "b" && m[..1] == "a" && y[1..] == "b";
  }

  /** A shorter major part sorts first, yet the midpoint of the values is
      a longer numeral: `a:` and `aaa:` give `mn:`, which sorts after both. */
  lemma LongerMajorSortsAfter(a: string, b: string)
    requires a == "a:" && b == "aaa:"
    ensures IsRankString(a) && IsRankString(b)
    ensures BetweenRanks(a, b) == "mn:"
    ensures JsLess(b, "mn:")
  {
    var lower, upper, middle := "a", "aaa", "mn";
    assert upper[..2] == "aa" && "aa"[..1] == "a" && middle[..1] == "m";
    assert Decode(lower) == 1 && Decode(upper) == 703 && Decode(middle) == 352;
    var A, B, R := Rank(lower, ""), Rank(upper, ""), Rank(middle, "");
    assert Show(A) == a && Show(B) == b && Show(R) == "mn:";
    assert a[1..] == ":" && b[1..] == "aa:";
    MajorSplitResult(A, B, middle);
  }

  /** An empty minor part defaults to 'a', so a lower rank with minor part
      'b' leaves no room: `aaa:` and `aaa:b` give `aaa:i`, which sorts after
      both. */
  lemma EmptyMinorExtendsPast(a: string, b: string)
    requires a == "aaa:" && b == "aaa:b"
    ensures IsRankString(a) && IsRankString(b)
    ensures BetweenRanks(a, b) == "aaa:i"
    ensures JsLess(b, "aaa:i")
  {
    var major, y := a[..3], b[4..];
    assert major == "aaa" && y == "b";
    assert Decode("a") == 1 && Decode(y) == 2;
    var A, B := Rank(major, a[4..]), Rank(major, y);
    assert Show(A) == a && Show(B) == b && Show(A) + "i" == "aaa:i";
    assert JsLess(b, "aaa:i") by {
      assert Show(Rank(major, "i")) == "aaa:i" && JsLess(y, "i");
      ShowMinorOrder(B, Rank(major, "i"));
    }
    SameMajorExtend(A, B);
  }

  /** Adjacent lowercase major parts of one length, the lower rank's
      defaulted minor value at least 2 above the upper rank's: the upper major part is kept and the minor part is
      the midpoint numeral `m` (given here, not ending in 'a'). */
  lemma AdjacentMajorsSplitMinor(above: Rank, below: Rank, m: string)
    requires IsRank(above) && IsRank(below)
    requires IsLowerNumeral(above.major) && IsLowerNumeral(below.major)
    requires |above.major| == |below.major| && Decode(below.major) == Decode(above.major) + 1
    requires MinorGap(above, below) >= 2
    requires IsLowerNumeral(m) && |m| > 0 && m[|m| - 1] != 'a'
    requires Decode(m) == (MinorAboveValue(above) + MinorBelowValue(below)) / 2
    ensures IsRankString(Show(above)) && IsRankString(Show(below))
    ensures BetweenRanks(Show(above), Show(below)) == Show(Rank(above.major, m))
  {
    MajorOrderOfParts(above, below);
    SplitMinorIs(above, below, m);
    BetweenRanksOfParts(above, below);
  }

  /** Adjacent major parts of one length, yet a longer minor part on the
      lower rank: `aaa:zz` and `aab:zzz` give `aaa:mzz`, which sorts before
      both. */
  lemma LongerLowerMinorSortsBefore(a: string, b: string)
    requires a == "aaa:zz" && b == "aab:zzz"
    ensures IsRankString(a) && IsRankString(b)
    ensures BetweenRanks(a, b) == "aaa:mzz"
    ensures JsLess("aaa:mzz", a)
  {
    var upper, lower, x, y := a[..3], b[..3], a[4..], b[4..];
    var m := "m" + x;
    assert upper == "aaa" && lower == "aab" && x == "zz" && y == "zzz" && m == "mzz";
    LongerLowerMinorValues(upper, lower, x, y, m);
    var A, B, R := Rank(upper, x), Rank(lower, y), Rank(upper, m);
    assert Show(A) == a && Show(B) == b && Show(R) == "aaa:mzz";
    assert JsLess("aaa:mzz", a) by { ShowMinorOrder(R, A); }
    AdjacentMajorsSplitMinor(A, B, m);
  }

  /** The parts of LongerLowerMinorSortsBefore: the major parts "aaa" and
      "aab" are adjacent (703 and 704); the minor parts "zz" and "zzz" have
      the values 702 and 18278, whose midpoint 9490 is "mzz", which sorts
      before "zz". */
  lemma LongerLowerMinorValues(upper: string, lower: string, x: string, y: string, m: string)
    requires upper == "aaa" && lower == "aab" && x == "zz" && y == "zzz" && m == "mzz"
    ensures IsLowerNumeral(upper) && IsLowerNumeral(lower) && |upper| == |lower|
    ensures Decode(upper) == 703 && Decode(lower) == 704
    ensures IsLowerNumeral(m) && m[|m| - 1] != 'a'
    ensures Decode(x) == 702 && Decode(y) == 18278 && Decode(m) == 9490
    ensures JsLess(m, x)
  {
    assert upper[..2] == "aa" && lower[..2] == "aa" && "aa"[..1] == "a";
    assert y[..2] == "zz" && x[..1] == "z" && m[..2] == "mz" && "mz"[..1] == "m";
  }

  /** Two equal ranks, `a:` and `a:`, give `a:m`. */
  lemma EqualRanksExample(a: string)
    requires a == "a:"
    ensures IsRankString(a)
    ensures BetweenRanks(a, a) == "a:m"
  {
    var A := Rank("a", "");
    assert Show(A) == a && a + "m" == "a:m";
    EqualRanksGiveM(A);
  }
}

=== FILE: shift.dfy ===
/** increaseRank (src/index.ts:99-107): move a rank by a signed distance by
    decoding it, adding, and encoding the sum. */
module Shift {
  import opened Codec

  /** The rank `n` places after `rank` (before it when n is negative). The
      sum must be at least 1: the encoder has no numeral for smaller
      values. */
  function IncreaseRank(rank: string, n: int): (r: string)
    requires IsNumeral(rank) && Decode(rank) + n >= 1
    ensures |r| > 0 && IsLowerNumeral(r)
    ensures Decode(r) == Decode(rank) + n
  {
    var sum := Decode(rank) + n;
    DecodeEncode(sum);
    Encode(sum)
  }

  /** Two moves in a row are one move by the sum of the distances. */
  lemma IncreaseRankCompose(rank: string, m: int, n: int)
    requires IsNumeral(rank) && Decode(rank) + m >= 1 && Decode(rank) + m + n >= 1
    ensures IncreaseRank(IncreaseRank(rank, m), n) == IncreaseRank(rank, m + n)
  {
    var r := IncreaseRank(rank, m);
    LowerNumeralIsNumeral(r);
    assert Decode(r) + n == Decode(rank) + (m + n);
  }

  /** Moving back by the same distance returns the original rank, in
      lowercase. */
  lemma IncreaseRankInverse(rank: string, n: int)
    requires IsNumeral(rank) && |rank| > 0 && Decode(rank) + n >= 1
    ensures IncreaseRank(IncreaseRank(rank, n), -n) == Lower(rank)
  {
    EncodeDecode(rank);
  }

  /** A move by zero only normalises the case of a non-empty rank. */
  lemma IncreaseRankZero(rank: string)
    requires IsNumeral(rank) && |rank| > 0
    ensures IncreaseRank(rank, 0) == Lower(rank)
  {
    EncodeDecode(rank);
  }

  /** The result is the one lowercase numeral whose value is the sum. */
  lemma IncreaseRankUnique(rank: string, n: int, t: string)
    requires IsNumeral(rank) && IsLowerNumeral(t) && |t| > 0
    requires Decode(rank) + n == Decode(t)
    ensures IncreaseRank(rank, n) == t
  {
    LowerNumeralInjective(IncreaseRank(rank, n), t);
  }

  // The cases of src/index.spec.tsx:3-53, one lemma per expectation.

  /** The expectation of src/index.spec.tsx:4-9. */
  lemma IncreaseSmall()
    ensures IncreaseRank("aaa", 10) == "aak"
  {
    assert "aaa"[..2] == "aa" && "aa"[..1] == "a" && "aak"[..2] == "aa";
    IncreaseRankUnique("aaa", 10, "aak");
  }

  /** The expectation of src/index.spec.tsx:11-16. */
  lemma IncreaseSmallOtherRank()
    ensures IncreaseRank("aaz", 10) == "abj"
  {
    assert "aaz"[..2] == "aa" && "aa"[..1] == "a" && "abj"[..2] == "ab" && "ab"[..1] == "a";
    IncreaseRankUnique("aaz", 10, "abj");
  }

  /** The expectation of src/index.spec.tsx:18-23. */
  lemma IncreaseMedium()
    ensures IncreaseRank("aaa", 36) == "abk"
  {
    assert "aaa"[..2] == "aa" && "aa"[..1] == "a" && "abk"[..2] == "ab" && "ab"[..1] == "a";
    IncreaseRankUnique("aaa", 36, "abk");
  }

  /** The expectation of src/index.spec.tsx:25-30. */
  lemma IncreaseLarge()
    ensures IncreaseRank("aaa", 686) == "bak"
  {
    assert "aaa"[..2] == "aa" && "aa"[..1] == "a" && "bak"[..2] == "ba" && "ba"[..1] == "b";
    IncreaseRankUnique("aaa", 686, "bak");
  }

  /** The expectation of src/index.spec.tsx:35-36. */
  lemma IncrementStep1()
    ensures IncreaseRank("aaa", 20) == "aau"
  {
    assert "aaa"[..2] == "aa" && "aa"[..1] == "a" && "aau"[..2] == "aa";
    IncreaseRankUnique("aaa", 20, "aau");
  }

  /** The expectation of src/index.spec.tsx:38-39. */
  lemma IncrementStep2()
    ensures IncreaseRank("aau", 20) == "abo"
  {
    assert "aau"[..2] == "aa" && "aa"[..1] == "a" && "abo"[..2] == "ab" && "ab"[..1] == "a";
    IncreaseRankUnique("aau", 20, "abo");
  }

  /** The expectation of src/index.spec.tsx:41-42. */
  lemma IncrementStep3()
    ensures IncreaseRank("abo", 20) == "aci"
  {
    assert "abo"[..2] == "ab" && "ab"[..1] == "a" && "aci"[..2] == "ac" && "ac"[..1] == "a";
    IncreaseRankUnique("abo", 20, "aci");
  }

  /** The expectation of src/index.spec.tsx:44-45. */
  lemma IncrementStep4()
    ensures IncreaseRank("aci", 676) == "bci"
  {
    assert "aci"[..2] == "ac" && "ac"[..1] == "a" && "bci"[..2] == "bc" && "bc"[..1] == "b";
    IncreaseRankUnique("aci", 676, "bci");
  }

  /** The expectation of src/index.spec.tsx:47-48. */
  lemma IncrementStep5()
    ensures IncreaseRank("bci", 26) == "bdi"
  {
    assert "bci"[..2] == "bc" && "bc"[..1] == "b" && "bdi"[..2] == "bd" && "bd"[..1] == "b";
    IncreaseRankUnique("bci", 26, "bdi");
  }

  /** The expectation of src/index.spec.tsx:50-51. */
  lemma IncrementStep6()
    ensures IncreaseRank("bdi", 17576) == "abdi"
  {
    assert "bdi"[..2] == "bd" && "bd"[..1] == "b" && "abdi"[..3] == "abd" && "abd"[..2] == "ab" && "ab"[..1] == "a";
    IncreaseRankUnique("bdi", 17576, "abdi");
  }
}

=== FILE: string_order.dfy ===
/** JavaScript's `<` on strings, as used to pick the lower of two ranks
    (src/index.ts:61): characters are compared one by one from the left,
    the first difference decides, and a proper prefix sorts first. */
module StringOrder {

  /** `a < b` in JavaScript. Characters compare by code point, which agrees
      with the UTF-16 code-unit order JavaScript uses for every character of
      the Basic Multilingual Plane (all the characters a rank can contain). */
  predicate JsLess(a: string, b: string)
    ensures JsLess(a, b) ==> a != b
    ensures |a| < |b| && a == b[..|a|] ==> JsLess(a, b)
  {
    if |b| == 0 then false
    else if |a| == 0 then true
    else if a[0] != b[0] then a[0] < b[0]
    else JsLess(a[1..], b[1..])
  }

  lemma {:induction false} JsLessIrreflexive(a: string)
    ensures !JsLess(a, a)
  {
    if |a| > 0 {
      JsLessIrreflexive(a[1..]);
    }
  }

  lemma {:induction false} JsLessAsymmetric(a: string, b: string)
    ensures JsLess(a, b) ==> !JsLess(b, a)
  {
    if |a| > 0 && |b| > 0 && a[0] == b[0] {
      JsLessAsymmetric(a[1..], b[1..]);
    }
  }

  /** Any two different strings are ordered one way or the other. */
  lemma {:induction false} JsLessTotal(a: string, b: string)
    ensures a == b || JsLess(a, b) || JsLess(b, a)
  {
    if |a| > 0 && |b| > 0 && a[0] == b[0] {
      JsLessTotal(a[1..], b[1..]);
      if a[1..] == b[1..] {
        assert a == [a[0]] + a[1..];
        assert b == [b[0]] + b[1..];
      }
    }
  }

  lemma {:induction false} JsLessTransitive(a: string, b: string, c: string)
    requires JsLess(a, b) && JsLess(b, c)
    ensures JsLess(a, c)
  {
    if |a| > 0 && a[0] == b[0] && b[0] == c[0] {
      JsLessTransitive(a[1..], b[1..], c[1..]);
    }
  }

  /** Extending a string makes it sort strictly later. */
  lemma {:induction false} PrefixIsLess(a: string, t: string)
    requires |t| > 0
    ensures JsLess(a, a + t)
  {
    if |a| > 0 {
      assert (a + t)[1..] == a[1..] + t;
      PrefixIsLess(a[1..], t);
    }
  }

  /** A shared prefix does not affect the comparison. */
  lemma {:induction false} CommonPrefix(p: string, a: string, b: string)
    ensures JsLess(p + a, p + b) <==> JsLess(a, b)
  {
    if |p| == 0 {
      assert p + a == a && p + b == b;
    } else {
      assert (p + a)[1..] == p[1..] + a;
      assert (p + b)[1..] == p[1..] + b;
      CommonPrefix(p[1..], a, b);
    }
  }

  /** When two strings of equal length already compare, whatever follows
      them does not change the outcome. */
  lemma {:induction false} DifferWithin(x: string, y: string, s: string, t: string)
    requires |x| == |y| && JsLess(x, y)
    ensures JsLess(x + s, y + t)
  {
    if x[0] == y[0] {
      assert (x + s)[1..] == x[1..] + s;
      assert (y + t)[1..] == y[1..] + t;
      DifferWithin(x[1..], y[1..], s, t);
    }
  }
}
